=== FILE: README.md ===
# BioDWH2 graph store, modelled in Dafny

BioDWH2 builds one property graph out of many biomedical data sources. Its
graph store (`Graph`) keeps nodes and edges in an embedded document store. Each
entity is a change-tracked property bag (`MVStoreModel`) with a label and a
store-assigned identity. This project models that store as immutable Dafny
values with pure operations:

- `wrappers.dfy` (`Wrappers`): `Option` and `Result`.
- `values.dfy` (`Values`): property values, keys and key/value entries.
- `property_bag.dfy` (`PropertyBag`): the property bag, covering reads and
  writes, the changed-key set, and the serialised form.
- `graph_model.dfy` (`GraphModel`): the entities and the store state. Identities
  come from one shared counter, and the store invariant `Valid` says that
  identities are unique and each entity is filed under its own identity. This
  module also holds the index declarations, opening and disposing.
- `graph_crud.dfy` (`GraphCrud`): `addNode`, `addEdge` with its validation
  order, and `update`.
- `graph_query.dfy` (`GraphQuery`): `getNode`, `getEdge`, `getNodes`,
  `getEdges`, the `findNode`/`findNodes`/`findEdge`/`findEdges` families, and
  adjacency by edge label.
- `graph_merge.dfy` (`GraphMerge`): `mergeNodes` and `mergeDatabase`.
- `graph_labels.dfy` (`GraphLabels`): `prefixAllLabels` and
  `setNodeIndexPropertyKeys`.
- `graph_scenarios.dfy` (`GraphScenarios`): properties that relate several
  operations.

The storage file is a parameter. Opening with `reopen` takes the graph that the
file holds, and `mergeDatabase` receives the other file's graph the same way.
Iteration order of the underlying collections is unspecified. The operations
whose result can depend on that order are methods that pick the next element
with `:|`, so their contracts hold for every order: `FindFirst`, `FindNode`,
`FindEdge`, `AdjacentNodeIds`, `WriteObject`, `AssignIds` and `MergeDatabase`.
The other walks (`mergeNodes`, `prefixAllLabels`, `getNodes`, the `find…`
listings and the import steps of `mergeDatabase`) give the same result in
every order, and are modelled as set and map comprehensions.

In these places the model follows the code as written:

- `addNode` does not check its label, so the model accepts any label, empty
  included.
- `addEdge` raises different errors for a null source node and a null target
  node, so there are two error constructors.
- `update` does not insert an entity whose identity is not stored; it leaves
  the store as it is.
- The reserved key `__id` can be overwritten through `setProperty`. A value
  other than an identity object stored there makes `getId()` fail its cast.
- Identities passed in by callers (`addEdge` by identity, `getNode`,
  `getEdge`, adjacency) are any signed values, negative included, and are
  stored unchecked. Identities the store hands out are non-negative.

## Model

| member | source | states |
|---|---|---|
| PropertyBag.New | src/biodwh2-core/src/main/java/de/unibi/agbi/biodwh2/core/io/mvstore/MVStoreModel.java:17-20 | a new bag has no property and no changed key, and satisfies the bag invariant |
| PropertyBag.HasProperty | src/biodwh2-core/src/main/java/de/unibi/agbi/biodwh2/core/io/mvstore/MVStoreModel.java:72-74 | a key that is not present reads as null, so only `hasProperty` tells an absent key from a stored null |
| PropertyBag.KeySet | src/biodwh2-core/src/main/java/de/unibi/agbi/biodwh2/core/io/mvstore/MVStoreModel.java:76-78 | the key set holds exactly the keys for which `hasProperty` is true |
| PropertyBag.Get | src/biodwh2-core/src/main/java/de/unibi/agbi/biodwh2/core/io/mvstore/MVStoreModel.java:39-47 | reading a key gives its stored value, or null when the key was never written |
| PropertyBag.GetId | src/biodwh2-core/src/main/java/de/unibi/agbi/biodwh2/core/io/mvstore/MVStoreModel.java:64-66 | null when the reserved key `__id` is absent or holds null; the stored identity object when it holds one; otherwise the cast to an identity fails |
| PropertyBag.GetIdAfterSetProperty | src/biodwh2-core/src/main/java/de/unibi/agbi/biodwh2/core/io/mvstore/MVStoreModel.java:64-66 | after writing `__id`, `getId()` succeeds exactly when the value written is null or an identity object, and then returns it; writing any other key leaves `getId()` as it was |
| PropertyBag.GetIdValue | src/biodwh2-core/src/main/java/de/unibi/agbi/biodwh2/core/io/mvstore/MVStoreModel.java:68-70 | the identity value succeeds exactly when `__id` holds an identity object, and returns that object's value; a null or absent identity is a null dereference, and any other kind fails the cast as in `getId()` |
| PropertyBag.GetIdValueAfterSetIdentity | src/biodwh2-core/src/main/java/de/unibi/agbi/biodwh2/core/io/mvstore/MVStoreModel.java:68-70 | after storing an identity object under `__id`, `getIdValue()` returns its value; after storing null there it fails with the null dereference |
| PropertyBag.SetProperty | src/biodwh2-core/src/main/java/de/unibi/agbi/biodwh2/core/io/mvstore/MVStoreModel.java:34-37 | the key then reads the new value and is present and marked changed; every other key reads as before and keeps its changed mark; the key set grows by exactly that key; the invariant is kept |
| PropertyBag.Put | src/biodwh2-core/src/main/java/de/unibi/agbi/biodwh2/core/io/mvstore/MVStoreModel.java:30-32 | `put` has exactly the effect of `setProperty` |
| PropertyBag.ResetChangedKeys | src/biodwh2-core/src/main/java/de/unibi/agbi/biodwh2/core/io/mvstore/MVStoreModel.java:26-28 | after a reset no key is marked changed and every value is kept |
| PropertyBag.AssignLastWins | src/biodwh2-core/src/main/java/de/unibi/agbi/biodwh2/core/io/mvstore/MVStoreModel.java:34-37 | when several writes hit one key, the last write's value is the one stored |
| PropertyBag.SetAll | src/biodwh2-core/src/main/java/de/unibi/agbi/biodwh2/core/model/graph/Graph.java:108-138 | writing pairs one by one gives the pairs folded into the map in order, and marks exactly their keys changed |
| PropertyBag.SetAllFromMap | src/biodwh2-core/src/main/java/de/unibi/agbi/biodwh2/core/model/graph/Graph.java:140-146 | writing a property map makes each of its keys read the map's value, while other keys read as before; the key set and the changed set both grow by the map's keys |
| PropertyBag.SetAllFromMapAnyOrder | src/biodwh2-core/src/main/java/de/unibi/agbi/biodwh2/core/model/graph/Graph.java:140-146 | walking a map's entries in any order gives the same bag |
| PropertyBag.WriteObject | src/biodwh2-core/src/main/java/de/unibi/agbi/biodwh2/core/io/mvstore/MVStoreModel.java:49-51 | the serialised form lists every property exactly once, with its value |
| PropertyBag.ReadObject | src/biodwh2-core/src/main/java/de/unibi/agbi/biodwh2/core/io/mvstore/MVStoreModel.java:53-57 | a deserialised bag has exactly the keys of the stream and an empty changed set |
| PropertyBag.SerialRoundTrip | src/biodwh2-core/src/main/java/de/unibi/agbi/biodwh2/core/io/mvstore/MVStoreModel.java:49-57 | reading back a serialised bag restores its properties, with nothing marked changed |
| PropertyBag.RoundTrip | src/biodwh2-core/src/main/java/de/unibi/agbi/biodwh2/core/io/mvstore/MVStoreModel.java:49-57 | a serialise-then-deserialise pass keeps every property and clears the changed set |
| PropertyBag.ChangedWithinKeys | src/biodwh2-core/src/main/java/de/unibi/agbi/biodwh2/core/io/mvstore/MVStoreModel.java:22-57 | under any sequence of writes, resets and reads, the changed keys stay among the present keys |
| PropertyBag.ChangedWithinKeysFromNew | src/biodwh2-core/src/main/java/de/unibi/agbi/biodwh2/core/io/mvstore/MVStoreModel.java:17-57 | the same holds from construction on |
| GraphModel.AddIndexIfNotExists | src/biodwh2-core/src/main/java/de/unibi/agbi/biodwh2/core/model/graph/Graph.java:58-61 | afterwards the field is indexed; an existing index keeps its kind, and a missing one is added as non-unique with nothing else changed |
| GraphModel.DropIndexIfExists | src/biodwh2-core/src/main/java/de/unibi/agbi/biodwh2/core/model/graph/Graph.java:83-86 | afterwards the field is not indexed, and every other index is kept with its kind |
| GraphModel.AddIndicesIfNotExist | src/biodwh2-core/src/main/java/de/unibi/agbi/biodwh2/core/model/graph/Graph.java:51-61 | each named field ends up indexed; existing indices keep their kind and new ones are non-unique |
| GraphModel.CreateInternalIndices | src/biodwh2-core/src/main/java/de/unibi/agbi/biodwh2/core/model/graph/Graph.java:51-56 | afterwards the node label and the edge from, to and label fields are indexed; nothing but the index declarations changes |
| GraphModel.LoadNodes | src/biodwh2-core/src/main/java/de/unibi/agbi/biodwh2/core/io/mvstore/MVStoreModel.java:53-57 | a node read back from storage keeps its identity, label and properties, and has no key marked changed |
| GraphModel.LoadEdges | src/biodwh2-core/src/main/java/de/unibi/agbi/biodwh2/core/io/mvstore/MVStoreModel.java:53-57 | an edge read back from storage keeps its identity, label, endpoints and properties, and has no key marked changed |
| GraphModel.Open | src/biodwh2-core/src/main/java/de/unibi/agbi/biodwh2/core/model/graph/Graph.java:30-56 | an opened store is open and carries the internal indices. Without `reopen` it is empty. With `reopen` it holds the file's nodes and edges as read back from storage (nothing marked changed), its identity supply and its indices. Without `reopen` it satisfies the store invariant; with `reopen` it does whenever the file's content does |
| GraphModel.Dispose | src/biodwh2-core/src/main/java/de/unibi/agbi/biodwh2/core/model/graph/Graph.java:555-561 | disposing leaves the store closed, reports whether it was open, and keeps what is stored: nodes, edges, the identity supply and both index maps |
| GraphModel.DisposeIdempotent | src/biodwh2-core/src/main/java/de/unibi/agbi/biodwh2/core/model/graph/Graph.java:555-561 | a second dispose closes nothing and changes nothing |
| GraphModel.ReopenRoundTrip | src/biodwh2-core/src/main/java/de/unibi/agbi/biodwh2/core/model/graph/Graph.java:30-37 | disposing and reopening the same file gives back every node and edge under the same identity, with the same label and properties, and each edge with the same endpoints; every index declared before is still declared with its kind. Only the changed marks are cleared, so an entity with none marked comes back equal |
| GraphCrud.BagOf | src/biodwh2-core/src/main/java/de/unibi/agbi/biodwh2/core/model/graph/Graph.java:101-146 | a new entity's bag holds exactly the given keys, all marked changed; with a map, each key reads the map's value |
| GraphCrud.BagOfLastValueWins | src/biodwh2-core/src/main/java/de/unibi/agbi/biodwh2/core/model/graph/Graph.java:108-138 | with inline pairs, each key holds the value of its last occurrence |
| GraphCrud.AddNode | src/biodwh2-core/src/main/java/de/unibi/agbi/biodwh2/core/model/graph/Graph.java:95-146 | a node is inserted under a fresh identity, unused by any node or edge. The node count grows by one and nothing else stored changes. The node carries the label and exactly the given property keys. The store invariant is kept |
| GraphCrud.AddNodeStoresLastValues | src/biodwh2-core/src/main/java/de/unibi/agbi/biodwh2/core/model/graph/Graph.java:101-138 | the stored node holds, for every key, its last given value |
| GraphCrud.IsValidEdgeLabel | src/biodwh2-core/src/main/java/de/unibi/agbi/biodwh2/core/model/graph/Graph.java:205-208 | a null or empty edge label is rejected and any other label is accepted |
| GraphCrud.EdgeArgsError | src/biodwh2-core/src/main/java/de/unibi/agbi/biodwh2/core/model/graph/Graph.java:172-208 | the checks run in order: a null source node is reported first, then a null target node, then an invalid label; no error is reported exactly when all three pass |
| GraphCrud.AddEdge | src/biodwh2-core/src/main/java/de/unibi/agbi/biodwh2/core/model/graph/Graph.java:172-290 | a null source node is reported first, then a null target node, then a null or empty label. The edge is inserted exactly when none applies, and a rejected call leaves the store unchanged. On success the new edge has a fresh identity, the given endpoints, label and property keys, each map property reads the map's value, and the edge count grows by one |
| GraphCrud.AddEdgeStoresLastValues | src/biodwh2-core/src/main/java/de/unibi/agbi/biodwh2/core/model/graph/Graph.java:257-265 | an inline-pairs `addEdge` that succeeds stores each key's last given value, so a later duplicate key overwrites an earlier one |
| GraphCrud.AddEdgeBothNullReportsSource | src/biodwh2-core/src/main/java/de/unibi/agbi/biodwh2/core/model/graph/Graph.java:172-186 | with both node arguments null, the source-node error is the one raised, and the store is unchanged |
| GraphCrud.UpdateNode | src/biodwh2-core/src/main/java/de/unibi/agbi/biodwh2/core/model/graph/Graph.java:166-170 | null is rejected with the store unchanged; a stored identity has its node replaced in full; an unknown identity changes nothing; counts and the store invariant are kept |
| GraphCrud.UpdateEdge | src/biodwh2-core/src/main/java/de/unibi/agbi/biodwh2/core/model/graph/Graph.java:296-300 | the same for edges |
| GraphQuery.GetNode | src/biodwh2-core/src/main/java/de/unibi/agbi/biodwh2/core/model/graph/Graph.java:330-332 | finds the node exactly when its identity is stored as a node |
| GraphQuery.GetEdge | src/biodwh2-core/src/main/java/de/unibi/agbi/biodwh2/core/model/graph/Graph.java:334-336 | finds the edge exactly when its identity is stored as an edge |
| GraphQuery.GetNodes | src/biodwh2-core/src/main/java/de/unibi/agbi/biodwh2/core/model/graph/Graph.java:302-310 | a null or empty label lists every node; otherwise exactly the nodes carrying that label |
| GraphQuery.GetEdges | src/biodwh2-core/src/main/java/de/unibi/agbi/biodwh2/core/model/graph/Graph.java:312-320 | a null or empty label lists every edge; otherwise exactly the edges carrying that label |
| GraphQuery.FindNodes | src/biodwh2-core/src/main/java/de/unibi/agbi/biodwh2/core/model/graph/Graph.java:392-435 | exactly the stored nodes whose label and properties satisfy every equality of the query |
| GraphQuery.FindEdges | src/biodwh2-core/src/main/java/de/unibi/agbi/biodwh2/core/model/graph/Graph.java:476-504 | exactly the stored edges whose label and properties satisfy every equality of the query |
| GraphQuery.FindFirst | src/biodwh2-core/src/main/java/de/unibi/agbi/biodwh2/core/model/graph/Graph.java:338-380 | a first match, in an unspecified order, satisfies the filter; no result means that no entry does |
| GraphQuery.FindNode | src/biodwh2-core/src/main/java/de/unibi/agbi/biodwh2/core/model/graph/Graph.java:338-380 | the node returned satisfies the query; null is returned exactly when no node does |
| GraphQuery.FindNodeByMap | src/biodwh2-core/src/main/java/de/unibi/agbi/biodwh2/core/model/graph/Graph.java:382-390 | an empty map finds nothing. Otherwise the node returned has every key of the map at the map's value, and null means that each node differs on some key |
| GraphQuery.FindNodesByMap | src/biodwh2-core/src/main/java/de/unibi/agbi/biodwh2/core/model/graph/Graph.java:437-445 | an empty map lists every node; otherwise exactly the nodes that have every key of the map at the map's value |
| GraphQuery.FindEdge | src/biodwh2-core/src/main/java/de/unibi/agbi/biodwh2/core/model/graph/Graph.java:447-474 | the edge returned satisfies the query; null is returned exactly when no edge does |
| GraphQuery.AdjacentNodeIds | src/biodwh2-core/src/main/java/de/unibi/agbi/biodwh2/core/model/graph/Graph.java:506-516 | exactly the endpoints of the edges with that label that touch the node, the node itself excluded |
| GraphMerge.Redirect | src/biodwh2-core/src/main/java/de/unibi/agbi/biodwh2/core/model/graph/Graph.java:518-526 | an endpoint naming the merged-away node now names the kept node, and any other endpoint is unchanged |
| GraphMerge.Repoint | src/biodwh2-core/src/main/java/de/unibi/agbi/biodwh2/core/model/graph/Graph.java:518-526 | each endpoint of the edge that named the merged-away node names the kept node. Afterwards the edge names the merged-away node nowhere, unless the two nodes are the same. Identity, label and properties are unchanged |
| GraphMerge.RepointAll | src/biodwh2-core/src/main/java/de/unibi/agbi/biodwh2/core/model/graph/Graph.java:518-526 | every edge is re-pointed, each under its own identity |
| GraphMerge.MergeNodes | src/biodwh2-core/src/main/java/de/unibi/agbi/biodwh2/core/model/graph/Graph.java:518-529 | the same edges stay stored, each re-pointed. The merged-away node is removed, every other node is unchanged, and nothing else changes |
| GraphMerge.MergeNodesRepointsEdges | src/biodwh2-core/src/main/java/de/unibi/agbi/biodwh2/core/model/graph/Graph.java:518-526 | the edge count is unchanged, no edge names the merged-away node any more, and every endpoint that named it names the kept node |
| GraphMerge.MergeNodesRemovesSecond | src/biodwh2-core/src/main/java/de/unibi/agbi/biodwh2/core/model/graph/Graph.java:527-528 | the merged-away node is gone and the node count drops by one; the kept node keeps its own label and properties |
| GraphMerge.MergeNodesKeepsValid | src/biodwh2-core/src/main/java/de/unibi/agbi/biodwh2/core/model/graph/Graph.java:518-529 | merging keeps the store invariant |
| GraphMerge.Translate | src/biodwh2-core/src/main/java/de/unibi/agbi/biodwh2/core/model/graph/Graph.java:546-549 | an endpoint that names an imported node is mapped to the node's new identity; any other endpoint becomes null |
| GraphMerge.CopyMissingIndices | src/biodwh2-core/src/main/java/de/unibi/agbi/biodwh2/core/model/graph/Graph.java:533-538 | the other store's indices that are missing here are added with their kind; the existing indices are kept |
| GraphMerge.NumberingInjective | src/biodwh2-core/src/main/java/de/unibi/agbi/biodwh2/core/model/graph/Graph.java:540-545 | distinct imported entities receive distinct new identities, and these are exactly the recorded ones |
| GraphMerge.NumberingStep | src/biodwh2-core/src/main/java/de/unibi/agbi/biodwh2/core/model/graph/Graph.java:540-545 | numbering one more entity with the next identity keeps the numbering consistent |
| GraphMerge.AssigningStep | src/biodwh2-core/src/main/java/de/unibi/agbi/biodwh2/core/model/graph/Graph.java:540-545 | one more step of identity assignment keeps the assignment state consistent |
| GraphMerge.AssignIds | src/biodwh2-core/src/main/java/de/unibi/agbi/biodwh2/core/model/graph/Graph.java:540-551 | each imported entity receives its own fresh identity, taken consecutively from the supply, so that the supply advances by the number of entities |
| GraphMerge.ImportNodes | src/biodwh2-core/src/main/java/de/unibi/agbi/biodwh2/core/model/graph/Graph.java:540-545 | each imported node is stored under its new identity and carries it, and the stored nodes are kept |
| GraphMerge.ImportEdges | src/biodwh2-core/src/main/java/de/unibi/agbi/biodwh2/core/model/graph/Graph.java:546-551 | each imported edge is stored under its new identity with both endpoints translated, and the stored edges are kept |
| GraphMerge.FreshAbove | src/biodwh2-core/src/main/java/de/unibi/agbi/biodwh2/core/model/graph/Graph.java:540-551 | identities drawn above a collection's largest identity are new to it, so the count grows by their number |
| GraphMerge.ImportNodesImports | src/biodwh2-core/src/main/java/de/unibi/agbi/biodwh2/core/model/graph/Graph.java:540-545 | numbered nodes are imported as promised: fresh distinct identities, nothing stored lost or changed, the count grown by the number imported |
| GraphMerge.ImportEdgesImports | src/biodwh2-core/src/main/java/de/unibi/agbi/biodwh2/core/model/graph/Graph.java:546-551 | numbered edges are imported as promised, with endpoints translated |
| GraphMerge.ImportNodesFiled | src/biodwh2-core/src/main/java/de/unibi/agbi/biodwh2/core/model/graph/Graph.java:540-545 | imported nodes lie above the stored ones and below the new supply bound, each carrying its own identity |
| GraphMerge.ImportEdgesFiled | src/biodwh2-core/src/main/java/de/unibi/agbi/biodwh2/core/model/graph/Graph.java:546-551 | imported edges lie above the imported nodes and below the new supply bound, each carrying its own identity |
| GraphMerge.MergedKeepsValid | src/biodwh2-core/src/main/java/de/unibi/agbi/biodwh2/core/model/graph/Graph.java:531-553 | the merged store satisfies the store invariant |
| GraphMerge.MergeDatabase | src/biodwh2-core/src/main/java/de/unibi/agbi/biodwh2/core/model/graph/Graph.java:531-553 | every node and every edge of the other file is added under a fresh, distinct identity, and nothing stored is lost or changed. Each imported node equals its original, as read back from the other file, under its new identity. Each imported edge equals its original, as read back, with both endpoints translated to the new identities. Counts add up, missing indices are copied, and the store invariant is kept |
| GraphLabels.PrefixText | src/biodwh2-core/src/main/java/de/unibi/agbi/biodwh2/core/model/graph/Graph.java:69-79 | the prefix text is the given string, or the text `null` for a null prefix, as string concatenation renders it |
| GraphLabels.PrefixNodeLabels | src/biodwh2-core/src/main/java/de/unibi/agbi/biodwh2/core/model/graph/Graph.java:72-75 | every node label gains the prefix; identities and properties are unchanged |
| GraphLabels.PrefixEdgeLabels | src/biodwh2-core/src/main/java/de/unibi/agbi/biodwh2/core/model/graph/Graph.java:76-79 | every edge label gains the prefix; identities, endpoints and properties are unchanged |
| GraphLabels.PrefixAllLabels | src/biodwh2-core/src/main/java/de/unibi/agbi/biodwh2/core/model/graph/Graph.java:69-81 | every node and edge label gains the prefix, a null prefix as the text `null`; the internal indices are present afterwards, and the identity supply and registered index keys are unchanged |
| GraphLabels.PrefixResetsLabelIndices | src/biodwh2-core/src/main/java/de/unibi/agbi/biodwh2/core/model/graph/Graph.java:69-81 | the label indices come back non-unique, whatever kind they had; every other index keeps its kind, and the other internal indices are added if missing |
| GraphLabels.PrefixKeepsEntities | src/biodwh2-core/src/main/java/de/unibi/agbi/biodwh2/core/model/graph/Graph.java:69-81 | relabelling keeps the same identities and counts, and the store invariant |
| GraphLabels.PrefixNullPrependsNullText | src/biodwh2-core/src/main/java/de/unibi/agbi/biodwh2/core/model/graph/Graph.java:69-81 | a null prefix prepends the text `null` to every node and edge label |
| GraphLabels.PrefixTwice | src/biodwh2-core/src/main/java/de/unibi/agbi/biodwh2/core/model/graph/Graph.java:69-81 | relabelling is not idempotent: two calls prepend the prefix twice |
| GraphLabels.AddPropertyIndices | src/biodwh2-core/src/main/java/de/unibi/agbi/biodwh2/core/model/graph/Graph.java:63-67 | each given key ends up indexed, existing indices keep their kind, and only given keys gain a new non-unique index |
| GraphLabels.SetNodeIndexPropertyKeys | src/biodwh2-core/src/main/java/de/unibi/agbi/biodwh2/core/model/graph/Graph.java:63-67 | the given keys are added to the registered keys and their indices are created; nothing else changes |
| GraphScenarios.AddNodeThenFind | src/biodwh2-core/src/main/java/de/unibi/agbi/biodwh2/core/model/graph/Graph.java:392-420 | a node added with a label and distinct property pairs is found by the query on that label and those pairs, listed under its label, and retrievable by its identity |
| GraphScenarios.AddNodeThenFindFirst | src/biodwh2-core/src/main/java/de/unibi/agbi/biodwh2/core/model/graph/Graph.java:338-356 | after such an insert, the single-result lookup on the same query returns a matching node |
| GraphScenarios.MergeNodesExample | src/biodwh2-core/src/main/java/de/unibi/agbi/biodwh2/core/model/graph/Graph.java:518-529 | merging b into a, with edges a→c and b→c, leaves nodes a and c and two edges a→c |

## Left out

- Storage engine internals are not modelled: compression, B-trees, transactions and file deletion. A failure to delete or open the file is an I/O error that lies outside the model.
- Lazy `Iterable` results and their snapshot behaviour: the model returns sets, computed when the call is made.
- `addNodeFromModel` and the class-mapping cache: these rely on reflection over annotated classes.
- `buildNode` and `buildEdge`: the builders are not part of this model.
- `createTempGraph`: it creates a temporary file, which is I/O.
- `getNumberOfNodes` and `getNumberOfEdges`: the contracts speak directly of the sizes of the node and edge collections.
- `getChangedKeys`: modelled as the bag's field `changedKeys`.
- PropertyBag.KeySet: `keySet()` and `getChangedKeys()` return mutable views of the bag's own map and set, through which a caller can remove a property or mark a key that is not present. The model treats both as read-only copies, so `ChangedWithinKeys` holds only for callers that do not mutate through those views.
- `toString` is left out.
- The private `dropAllInternalIndices` is left out because nothing calls it.
- Node.java and Edge.java are not part of this model. Labels and edge endpoints are therefore plain fields of the entity, not keys in its bag, and a node's identity is its `id` field.
- Floating-point values are kept as opaque 64-bit patterns; no arithmetic is done on them.
- Java serialisation internals are left out; the serialised form is the sequence of property entries.
- Null node labels, and a null label passed to `findNode`, `findNodes`, `findEdge`, `findEdges` or `getAdjacentNodeIdsForEdgeLabel`, are not modelled: labels are plain strings.
- Null property keys are not modelled: keys are plain strings, although the underlying hash map and hash set accept a null key in `setProperty`, `get` and `hasProperty`.
- Calls on a disposed store would dereference a null repository. Every operation therefore requires an open store.
- A null node passed to `mergeNodes` is not modelled. A null `second` is dereferenced at once. A null `first` is dereferenced only inside the loops, so Java throws only when some edge names `second`; otherwise it just deletes `second`.
- `mergeDatabase` opens the other file with `reopen`, which adds any missing internal indices to that file, and then disposes it. The model does not return that file's new state; it only reads the file's content.
- The identity counter's 64-bit range is not modelled: identities are unbounded integers, so wrap-around after 2^63 identities does not arise.
- Whether a read within one session returns the stored object or a fresh copy depends on the storage engine, which is not part of this model. The model returns the stored entity with its changed marks; only entities read back from a file start with none.

=== FILE: graph_crud.dfy ===
/**
 * Insertion and whole-entity update on the graph store: the `addNode`,
 * `addEdge` and `update` overloads of `Graph`.
 */
module GraphCrud {
  import opened Wrappers
  import opened Values
  import opened GraphModel
  import PB = PropertyBag

  /**
   * The property arguments of an insert overload: inline key/value pairs,
   * set in argument order, or a property map.
   */
  datatype Props = Pairs(entries: seq<Entry>) | PropertyMap(m: map<Key, Value>)

  /** The keys an insert writes. */
  function PropKeys(p: Props): set<Key>
  {
    match p
    case Pairs(es) => KeysOf(es)
    case PropertyMap(m) => m.Keys
  }

  /** The bag of a new entity after its properties are set one by one. */
  function BagOf(p: Props): (b: PB.Bag)
    ensures PB.Valid(b)
    ensures PB.KeySet(b) == PropKeys(p)
    ensures b.changedKeys == PropKeys(p)
    ensures p.PropertyMap? ==> forall k | k in p.m :: PB.Get(b, k) == p.m[k]
  {
    match p
    case Pairs(es) => PB.SetAll(PB.New(), es)
    case PropertyMap(m) => PB.SetAllFromMap(PB.New(), m)
  }

  /**
   * With inline pairs, each key ends with the value of its last occurrence:
   * a later duplicate key overwrites an earlier one.
   */
  lemma BagOfLastValueWins(es: seq<Entry>, i: nat)
    requires i < |es| && LastFor(es, i)
    ensures PB.Get(BagOf(Pairs(es)), es[i].0) == es[i].1
  {
    PB.AssignLastWins(map[], es, i);
  }

  /** Nothing but the node collection and the identity supply differ. */
  predicate OnlyNodesChanged(g: Graph, r: Graph)
  {
    r == g.(nodes := r.nodes, nextId := r.nextId)
  }

  /** Nothing but the edge collection and the identity supply differ. */
  predicate OnlyEdgesChanged(g: Graph, r: Graph)
  {
    r == g.(edges := r.edges, nextId := r.nextId)
  }

  /**
   * `addNode(label, k1, v1, …)` and `addNode(label, properties)`: insert a
   * node under a fresh identity and return it.
   */
  function AddNode(g: Graph, lbl: string, p: Props): (r: (Graph, Node))
    requires g.open && Valid(g)
    ensures Valid(r.0) && OnlyNodesChanged(g, r.0)
    ensures r.1.id !in g.nodes && r.1.id !in g.edges && r.1.id >= g.nextId
    ensures r.0.nodes == g.nodes[r.1.id := r.1]
    ensures |r.0.nodes| == |g.nodes| + 1
    ensures r.1.lbl == lbl
    ensures forall k :: PB.HasProperty(r.1.bag, k) <==> k in PropKeys(p)
    ensures p.PropertyMap? ==> forall k | k in p.m :: PB.Get(r.1.bag, k) == p.m[k]
  {
    var n := Node(g.nextId, lbl, BagOf(p));
    (g.(nodes := g.nodes[n.id := n], nextId := g.nextId + 1), n)
  }

  /** An inline-pairs `addNode` stores each key's last given value. */
  lemma AddNodeStoresLastValues(g: Graph, lbl: string, es: seq<Entry>)
    requires g.open && Valid(g)
    ensures forall i | 0 <= i < |es| && LastFor(es, i) ::
      PB.Get(AddNode(g, lbl, Pairs(es)).1.bag, es[i].0) == es[i].1
  {
    forall i | 0 <= i < |es| && LastFor(es, i)
      ensures PB.Get(AddNode(g, lbl, Pairs(es)).1.bag, es[i].0) == es[i].1
    {
      BagOfLastValueWins(es, i);
    }
  }

  /** An endpoint argument of `addEdge`: a (possibly null) node, or a raw identity. */
  datatype EndpointArg = NodeArg(node: Option<Node>) | IdArg(id: RawId)

  predicate IsNullNode(a: EndpointArg)
  {
    a.NodeArg? && a.node.None?
  }

  function EndpointId(a: EndpointArg): RawId
    requires !IsNullNode(a)
  {
    match a
    case NodeArg(n) => n.value.id
    case IdArg(id) => id
  }

  /** An edge label must be neither null nor empty. */
  predicate IsValidEdgeLabel(lbl: Option<string>): (r: bool)
    ensures lbl.None? ==> !r
    ensures lbl == Some("") ==> !r
    ensures lbl.Some? && lbl.value != "" ==> r
  {
    lbl.Some? && |lbl.value| > 0
  }

  /** Which validation, in the source's order, rejects an `addEdge` call, if any. */
  function EdgeArgsError(from: EndpointArg, to: EndpointArg, lbl: Option<string>): (r: Option<GraphError>)
    ensures r.None? <==> !IsNullNode(from) && !IsNullNode(to) && IsValidEdgeLabel(lbl)
    ensures IsNullNode(from) ==> r == Some(MissingSourceNode)
    ensures r == Some(MissingTargetNode) <==> !IsNullNode(from) && IsNullNode(to)
    ensures r == Some(InvalidLabel) <==> !IsNullNode(from) && !IsNullNode(to) && !IsValidEdgeLabel(lbl)
    ensures r != Some(NullEntity)
  {
    if IsNullNode(from) then Some(MissingSourceNode)
    else if IsNullNode(to) then Some(MissingTargetNode)
    else if !IsValidEdgeLabel(lbl) then Some(InvalidLabel)
    else None
  }

  /**
   * Every `addEdge` overload: validate the source node, then the target
   * node, then the label, and only then insert an edge under a fresh
   * identity. A rejected call leaves the store as it was.
   */
  function AddEdge(g: Graph, from: EndpointArg, to: EndpointArg, lbl: Option<string>, p: Props)
    : (r: (Graph, Result<Edge, GraphError>))
    requires g.open && Valid(g)
    ensures IsNullNode(from) ==> r.1 == Failure(MissingSourceNode)
    ensures !IsNullNode(from) && IsNullNode(to) ==> r.1 == Failure(MissingTargetNode)
    ensures !IsNullNode(from) && !IsNullNode(to) && !IsValidEdgeLabel(lbl) ==> r.1 == Failure(InvalidLabel)
    ensures r.1.Success? <==> !IsNullNode(from) && !IsNullNode(to) && IsValidEdgeLabel(lbl)
    ensures r.1.Failure? ==> r.0 == g
    ensures Valid(r.0) && OnlyEdgesChanged(g, r.0)
    ensures r.1.Success? ==>
      && r.1.value.id !in g.edges && r.1.value.id !in g.nodes
      && r.0.edges == g.edges[r.1.value.id := r.1.value]
      && |r.0.edges| == |g.edges| + 1
      && r.1.value.fromId == Some(EndpointId(from))
      && r.1.value.toId == Some(EndpointId(to))
      && r.1.value.lbl == lbl.value
      && (forall k :: PB.HasProperty(r.1.value.bag, k) <==> k in PropKeys(p))
    ensures r.1.Success? && p.PropertyMap? ==> forall k | k in p.m :: PB.Get(r.1.value.bag, k) == p.m[k]
  {
    match EdgeArgsError(from, to, lbl)
    case Some(err) => (g, Failure(err))
    case None =>
      var e := Edge(g.nextId, Some(EndpointId(from)), Some(EndpointId(to)), lbl.value, BagOf(p));
      (g.(edges := g.edges[e.id := e], nextId := g.nextId + 1), Success(e))
  }

  /** An inline-pairs `addEdge` that succeeds stores each key's last given value. */
  lemma AddEdgeStoresLastValues(g: Graph, from: EndpointArg, to: EndpointArg, lbl: Option<string>, es: seq<Entry>)
    requires g.open && Valid(g)
    ensures var r := AddEdge(g, from, to, lbl, Pairs(es)).1;
      r.Success? ==> forall i | 0 <= i < |es| && LastFor(es, i) :: PB.Get(r.value.bag, es[i].0) == es[i].1
  {
    forall i | 0 <= i < |es| && LastFor(es, i)
      ensures PB.Get(BagOf(Pairs(es)), es[i].0) == es[i].1
    {
      BagOfLastValueWins(es, i);
    }
  }

  /** With both node arguments null, the source-node error is the one raised. */
  lemma AddEdgeBothNullReportsSource(g: Graph, lbl: Option<string>, p: Props)
    requires g.open && Valid(g)
    ensures AddEdge(g, NodeArg(None), NodeArg(None), lbl, p) == (g, Failure(MissingSourceNode))
  {
  }

  /**
   * `update(node)`: reject null; otherwise overwrite the stored node with
   * the same identity, in full. An identity not in the store is not inserted.
   */
  function UpdateNode(g: Graph, n: Option<Node>): (r: (Graph, Result<(), GraphError>))
    requires g.open
    ensures n.None? ==> r == (g, Failure(NullEntity))
    ensures n.Some? ==> r.1.Success?
    ensures n.Some? && n.value.id in g.nodes ==> r.0.nodes == g.nodes[n.value.id := n.value]
    ensures n.Some? && n.value.id !in g.nodes ==> r.0 == g
    ensures |r.0.nodes| == |g.nodes| && r.0.edges == g.edges && OnlyNodesChanged(g, r.0)
    ensures r.0.nextId == g.nextId
    ensures Valid(g) ==> Valid(r.0)
  {
    match n
    case None => (g, Failure(NullEntity))
    case Some(node) =>
      if node.id in g.nodes then (g.(nodes := g.nodes[node.id := node]), Success(()))
      else (g, Success(()))
  }

  /** `update(edge)`: the same for edges. */
  function UpdateEdge(g: Graph, e: Option<Edge>): (r: (Graph, Result<(), GraphError>))
    requires g.open
    ensures e.None? ==> r == (g, Failure(NullEntity))
    ensures e.Some? ==> r.1.Success?
    ensures e.Some? && e.value.id in g.edges ==> r.0.edges == g.edges[e.value.id := e.value]
    ensures e.Some? && e.value.id !in g.edges ==> r.0 == g
    ensures |r.0.edges| == |g.edges| && r.0.nodes == g.nodes && OnlyEdgesChanged(g, r.0)
    ensures r.0.nextId == g.nextId
    ensures Valid(g) ==> Valid(r.0)
  {
    match e
    case None => (g, Failure(NullEntity))
    case Some(edge) =>
      if edge.id in g.edges then (g.(edges := g.edges[edge.id := edge]), Success(()))
      else (g, Success(()))
  }
}

=== FILE: graph_labels.dfy ===
/**
 * Label and index maintenance on the graph store: `prefixAllLabels`, which
 * namespaces a graph before merging, and `setNodeIndexPropertyKeys`.
 */
module GraphLabels {
  import opened Wrappers
  import opened Values
  import opened GraphModel

  /** Every node label `L` becomes `prefix + L`. */
  function PrefixNodeLabels(nodes: map<Id, Node>, prefix: string): (r: map<Id, Node>)
    ensures r.Keys == nodes.Keys
    ensures forall id | id in r :: r[id].lbl == prefix + nodes[id].lbl
    ensures forall id | id in r :: r[id].id == nodes[id].id && r[id].bag == nodes[id].bag
  {
    map id | id in nodes :: nodes[id].(lbl := prefix + nodes[id].lbl)
  }

  /** Every edge label `L` becomes `prefix + L`. */
  function PrefixEdgeLabels(edges: map<Id, Edge>, prefix: string): (r: map<Id, Edge>)
    ensures r.Keys == edges.Keys
    ensures forall id | id in r :: r[id].lbl == prefix + edges[id].lbl
    ensures forall id | id in r ::
      r[id].id == edges[id].id && r[id].fromId == edges[id].fromId && r[id].toId == edges[id].toId
      && r[id].bag == edges[id].bag
  {
    map id | id in edges :: edges[id].(lbl := prefix + edges[id].lbl)
  }

  /** The text string concatenation prepends: a null prefix reads as `null`. */
  function PrefixText(prefix: Option<string>): (s: string)
    ensures prefix.Some? ==> s == prefix.value
    ensures prefix.None? ==> s == "null"
  {
    if prefix.Some? then prefix.value else "null"
  }

  /**
   * `prefixAllLabels(prefix)`: drop the label indices, prepend `prefix` to
   * every node and edge label, then recreate the internal indices. The
   * label indices come back non-unique whatever kind they had.
   */
  function PrefixAllLabels(g: Graph, prefix: Option<string>): (r: Graph)
    requires g.open
    ensures r.nodes == PrefixNodeLabels(g.nodes, PrefixText(prefix))
    ensures r.edges == PrefixEdgeLabels(g.edges, PrefixText(prefix))
    ensures HasInternalIndices(r)
    ensures r.nextId == g.nextId && r.open && r.userNodeIndexKeys == g.userNodeIndexKeys
  {
    var dropped := g.(nodeIndices := DropIndexIfExists(g.nodeIndices, LabelField),
                      edgeIndices := DropIndexIfExists(g.edgeIndices, LabelField));
    CreateInternalIndices(dropped.(nodes := PrefixNodeLabels(g.nodes, PrefixText(prefix)),
                                   edges := PrefixEdgeLabels(g.edges, PrefixText(prefix))))
  }

  /**
   * The label indices are recreated as non-unique whatever kind they had;
   * every other index is kept as it was.
   */
  lemma PrefixResetsLabelIndices(g: Graph, prefix: Option<string>)
    requires g.open
    ensures var r := PrefixAllLabels(g, prefix);
      && r.nodeIndices[LabelField] == NonUnique && r.edgeIndices[LabelField] == NonUnique
      && r.nodeIndices.Keys == g.nodeIndices.Keys + {LabelField}
      && r.edgeIndices.Keys == g.edgeIndices.Keys + {FromIdField, ToIdField, LabelField}
      && (forall f | f in g.nodeIndices && f != LabelField :: r.nodeIndices[f] == g.nodeIndices[f])
      && (forall f | f in g.edgeIndices && f != LabelField :: r.edgeIndices[f] == g.edgeIndices[f])
  {
  }

  /** A null prefix prepends the text `null` to every label. */
  lemma PrefixNullPrependsNullText(g: Graph, id: Id)
    requires g.open
    ensures id in g.nodes ==> PrefixAllLabels(g, None).nodes[id].lbl == "null" + g.nodes[id].lbl
    ensures id in g.edges ==> PrefixAllLabels(g, None).edges[id].lbl == "null" + g.edges[id].lbl
  {
  }

  /** Relabelling neither adds nor removes entities and keeps the store invariant. */
  lemma PrefixKeepsEntities(g: Graph, prefix: Option<string>)
    requires g.open
    ensures var r := PrefixAllLabels(g, prefix);
      && r.nodes.Keys == g.nodes.Keys && r.edges.Keys == g.edges.Keys
      && |r.nodes| == |g.nodes| && |r.edges| == |g.edges|
      && (Valid(g) ==> Valid(r))
  {
  }

  /** Prefixing is not idempotent: a second call prepends the prefix again. */
  lemma PrefixTwice(g: Graph, prefix: Option<string>, id: Id)
    requires g.open
    ensures var r := PrefixAllLabels(PrefixAllLabels(g, prefix), prefix);
      && (id in g.nodes ==> r.nodes[id].lbl == PrefixText(prefix) + PrefixText(prefix) + g.nodes[id].lbl)
      && (id in g.edges ==> r.edges[id].lbl == PrefixText(prefix) + PrefixText(prefix) + g.edges[id].lbl)
  {
  }

  /** Create a non-unique index on each of `keys` unless one exists. */
  function AddPropertyIndices(ix: Indices, keys: seq<Key>): (r: Indices)
    ensures forall i | 0 <= i < |keys| :: PropertyField(keys[i]) in r
    ensures forall f | f in ix :: f in r && r[f] == ix[f]
    ensures forall f | f in r && f !in ix :: r[f] == NonUnique && f.PropertyField? && f.key in keys
    decreases |keys|
  {
    if |keys| == 0 then ix
    else AddPropertyIndices(AddIndexIfNotExists(ix, PropertyField(keys[0])), keys[1..])
  }

  /**
   * `setNodeIndexPropertyKeys(keys…)`: remember the keys and index each
   * node property among them that is not indexed yet.
   */
  function SetNodeIndexPropertyKeys(g: Graph, keys: seq<Key>): (r: Graph)
    requires g.open
    ensures r.userNodeIndexKeys == g.userNodeIndexKeys + (set i | 0 <= i < |keys| :: keys[i])
    ensures r.nodeIndices == AddPropertyIndices(g.nodeIndices, keys)
    ensures r == g.(nodeIndices := r.nodeIndices, userNodeIndexKeys := r.userNodeIndexKeys)
  {
    g.(userNodeIndexKeys := g.userNodeIndexKeys + (set i | 0 <= i < |keys| :: keys[i]),
       nodeIndices := AddPropertyIndices(g.nodeIndices, keys))
  }
}

=== FILE: graph_merge.dfy ===
/**
 * Consolidation on the graph store: `mergeNodes`, which folds one node into
 * another by re-pointing edges, and `mergeDatabase`, which imports a second
 * stored graph under fresh identities.
 */
module GraphMerge {
  import opened Wrappers
  import opened GraphModel

  /** An endpoint that named `from` now names `to`; any other is kept. */
  function Redirect(r: Ref, from: Id, to: Id): (r': Ref)
    ensures r == Some(from) ==> r' == Some(to)
    ensures r != Some(from) ==> r' == r
  {
    if r == Some(from) then Some(to) else r
  }

  /** Re-point both endpoints of an edge from `from` to `to`; nothing else changes. */
  function Repoint(e: Edge, from: Id, to: Id): (e': Edge)
    ensures e.fromId == Some(from) ==> e'.fromId == Some(to)
    ensures e.toId == Some(from) ==> e'.toId == Some(to)
    ensures e.fromId != Some(from) ==> e'.fromId == e.fromId
    ensures e.toId != Some(from) ==> e'.toId == e.toId
    ensures from != to ==> e'.fromId != Some(from) && e'.toId != Some(from)
    ensures e'.id == e.id && e'.lbl == e.lbl && e'.bag == e.bag
  {
    e.(fromId := Redirect(e.fromId, from, to), toId := Redirect(e.toId, from, to))
  }

  /** Re-point every edge of a collection, keeping each under its identity. */
  function RepointAll(edges: map<Id, Edge>, from: Id, to: Id): (r: map<Id, Edge>)
    ensures r.Keys == edges.Keys
    ensures forall id | id in r :: r[id] == Repoint(edges[id], from, to)
  {
    map id | id in edges :: Repoint(edges[id], from, to)
  }

  /**
   * `mergeNodes(first, second)`: every edge from or to `second` is re-pointed
   * at `first`, then `second` is removed. The properties of `second` are not
   * carried over.
   */
  function MergeNodes(g: Graph, first: Node, second: Node): (r: Graph)
    requires g.open
    ensures r.edges.Keys == g.edges.Keys
    ensures forall id | id in g.edges :: r.edges[id] == Repoint(g.edges[id], second.id, first.id)
    ensures r.nodes.Keys == g.nodes.Keys - {second.id}
    ensures forall id | id in r.nodes :: r.nodes[id] == g.nodes[id]
    ensures r == g.(nodes := r.nodes, edges := r.edges)
  {
    g.(edges := RepointAll(g.edges, second.id, first.id), nodes := g.nodes - {second.id})
  }

  /**
   * After merging, no edge names `second` (unless it is `first`), each edge
   * that named `second` names `first` in the same position, and the edge
   * count is unchanged.
   */
  lemma MergeNodesRepointsEdges(g: Graph, first: Node, second: Node)
    requires g.open
    ensures var r := MergeNodes(g, first, second);
      && |r.edges| == |g.edges|
      && (first.id != second.id ==>
            forall id | id in r.edges :: r.edges[id].fromId != Some(second.id) && r.edges[id].toId != Some(second.id))
      && (forall id | id in g.edges && g.edges[id].fromId == Some(second.id) :: r.edges[id].fromId == Some(first.id))
      && (forall id | id in g.edges && g.edges[id].toId == Some(second.id) :: r.edges[id].toId == Some(first.id))
  {
  }

  /**
   * Merging removes exactly `second`: the node count drops by one when it
   * was stored, and `first` keeps its own label and properties.
   */
  lemma MergeNodesRemovesSecond(g: Graph, first: Node, second: Node)
    requires g.open
    ensures var r := MergeNodes(g, first, second);
      && second.id !in r.nodes
      && (second.id in g.nodes ==> |r.nodes| == |g.nodes| - 1)
      && (first.id != second.id && first.id in g.nodes ==> r.nodes[first.id] == g.nodes[first.id])
  {
  }

  /** Merging keeps the store invariant. */
  lemma MergeNodesKeepsValid(g: Graph, first: Node, second: Node)
    requires g.open && Valid(g)
    ensures Valid(MergeNodes(g, first, second))
  {
  }

  /** The new identity of an imported endpoint; null when it names no imported node. */
  function Translate(r: Ref, ids: map<Id, Id>): (r': Ref)
    ensures r.Some? && r.value in ids ==> r' == Some(ids[r.value])
    ensures r.None? || r.value !in ids ==> r' == None
  {
    match r
    case None => None
    case Some(x) => if x in ids then Some(ids[x]) else None
  }

  /** Distinct keys map to distinct values. */
  ghost predicate Injective(m: map<Id, Id>)
  {
    forall a, b | a in m && b in m && a != b :: m[a] != m[b]
  }

  /** Copy over every index of `src` whose field `dst` lacks, keeping its kind. */
  function CopyMissingIndices(dst: Indices, src: Indices): (r: Indices)
    ensures r.Keys == dst.Keys + src.Keys
    ensures forall f | f in dst :: r[f] == dst[f]
    ensures forall f | f in src && f !in dst :: r[f] == src[f]
  {
    src + dst
  }

  /**
   * `ids` records old→new identities and `back` new→old: the two are
   * inverse, and every new identity lies in `[lo, hi)`.
   */
  ghost predicate Numbering(ids: map<Id, Id>, back: map<Id, Id>, lo: Id, hi: Id)
  {
    && (forall o | o in ids :: ids[o] in back && back[ids[o]] == o && lo <= ids[o] < hi)
    && (forall n | n in back :: back[n] in ids && ids[back[n]] == n && lo <= n < hi)
  }

  /** A numbering is injective and its new identities are exactly the inverse's keys. */
  lemma NumberingInjective(ids: map<Id, Id>, back: map<Id, Id>, lo: Id, hi: Id)
    requires Numbering(ids, back, lo, hi)
    ensures Injective(ids)
    ensures ids.Values == back.Keys
  {
    forall n | n in back
      ensures n in ids.Values
    {
      assert ids[back[n]] == n;
    }
  }

  /** Numbering one more key with the next identity keeps a numbering. */
  lemma NumberingStep(ids: map<Id, Id>, back: map<Id, Id>, lo: Id, hi: Id, o: Id)
    requires Numbering(ids, back, lo, hi) && o !in ids && lo <= hi
    ensures hi !in back
    ensures Numbering(ids[o := hi], back[hi := o], lo, hi + 1)
  {
    var ids', back' := ids[o := hi], back[hi := o];
    forall o' | o' in ids'
      ensures ids'[o'] in back' && back'[ids'[o']] == o' && lo <= ids'[o'] < hi + 1
    {
      if o' != o {
        assert ids'[o'] == ids[o'] < hi;
      }
    }
    forall n | n in back'
      ensures back'[n] in ids' && ids'[back'[n]] == n && lo <= n < hi + 1
    {
      if n != hi {
        assert back'[n] == back[n] && back[n] in ids;
      }
    }
  }

  /**
   * Part-way through numbering `keys` from `next` upwards: the keys outside
   * `rest` are numbered, and `next'` is the next identity to hand out.
   */
  ghost predicate Assigning(keys: set<Id>, next: Id, rest: set<Id>, ids: map<Id, Id>, back: map<Id, Id>, next': Id)
  {
    && rest <= keys && ids.Keys == keys - rest
    && next' == next + |ids| && |back| == |ids|
    && Numbering(ids, back, next, next')
  }

  /** Numbering one more key keeps the numbering state consistent. */
  lemma AssigningStep(keys: set<Id>, next: Id, rest: set<Id>, ids: map<Id, Id>, back: map<Id, Id>, next': Id, o: Id)
    requires Assigning(keys, next, rest, ids, back, next') && o in rest
    ensures Assigning(keys, next, rest - {o}, ids[o := next'], back[next' := o], next' + 1)
  {
    NumberingStep(ids, back, next, next', o);
  }

  /**
   * Draw a fresh identity from `next` upwards for each of `keys`, in an
   * unspecified order, recording old→new identities and their inverse.
   */
  method AssignIds(keys: set<Id>, next: Id) returns (ids: map<Id, Id>, back: map<Id, Id>, next': Id)
    ensures ids.Keys == keys
    ensures next' == next + |keys| && |back| == |keys|
    ensures Numbering(ids, back, next, next')
  {
    ids, back, next' := map[], map[], next;
    var rest := keys;
    while rest != {}
      invariant Assigning(keys, next, rest, ids, back, next')
      decreases rest
    {
      var o :| o in rest;
      AssigningStep(keys, next, rest, ids, back, next', o);
      ids, back, next', rest := ids[o := next'], back[next' := o], next' + 1, rest - {o};
    }
    assert ids.Keys == keys;
  }

  /** An imported edge: its new identity, and its endpoints translated. */
  function Imported(e: Edge, id: Id, nodeIds: map<Id, Id>): Edge
  {
    e.(id := id, fromId := Translate(e.fromId, nodeIds), toId := Translate(e.toId, nodeIds))
  }

  /** Add, under each new identity `n` of `back`, the node of `src` it was drawn for. */
  function ImportNodes(nodes: map<Id, Node>, src: map<Id, Node>, back: map<Id, Id>): (r: map<Id, Node>)
    requires forall n | n in back :: back[n] in src
    ensures r.Keys == nodes.Keys + back.Keys
    ensures forall id | id in nodes && id !in back :: r[id] == nodes[id]
    ensures forall n | n in back :: r[n] == src[back[n]].(id := n)
  {
    nodes + map n | n in back :: src[back[n]].(id := n)
  }

  /**
   * Add, under each new identity `n` of `back`, the edge of `src` it was
   * drawn for, with its endpoints translated through `nodeIds`.
   */
  function ImportEdges(edges: map<Id, Edge>, src: map<Id, Edge>, back: map<Id, Id>, nodeIds: map<Id, Id>)
    : (r: map<Id, Edge>)
    requires forall n | n in back :: back[n] in src
    ensures r.Keys == edges.Keys + back.Keys
    ensures forall id | id in edges && id !in back :: r[id] == edges[id]
    ensures forall n | n in back :: r[n] == Imported(src[back[n]], n, nodeIds)
  {
    edges + map n | n in back :: Imported(src[back[n]], n, nodeIds)
  }

  /**
   * `r` is `g`'s node collection with each node of `src` added under a
   * fresh identity that `ids` records: nothing stored is lost or changed,
   * and each added node is the original under its new identity.
   */
  ghost predicate NodesImported(g: Graph, src: map<Id, Node>, ids: map<Id, Id>, r: map<Id, Node>)
  {
    && ids.Keys == src.Keys && Injective(ids)
    && (forall o | o in ids :: ids[o] !in g.nodes && ids[o] !in g.edges)
    && r.Keys == g.nodes.Keys + ids.Values
    && |r| == |g.nodes| + |src|
    && (forall id | id in g.nodes :: r[id] == g.nodes[id])
    && (forall o | o in ids :: ids[o] in r && r[ids[o]] == src[o].(id := ids[o]))
  }

  /**
   * `r` is `g`'s edge collection with each edge of `src` added under a
   * fresh identity that `ids` records, its endpoints translated through
   * `nodeIds`.
   */
  ghost predicate EdgesImported(g: Graph, src: map<Id, Edge>, nodeIds: map<Id, Id>, ids: map<Id, Id>, r: map<Id, Edge>)
  {
    && ids.Keys == src.Keys && Injective(ids)
    && (forall o | o in ids :: ids[o] !in g.nodes && ids[o] !in g.edges)
    && r.Keys == g.edges.Keys + ids.Values
    && |r| == |g.edges| + |src|
    && (forall id | id in g.edges :: r[id] == g.edges[id])
    && (forall o | o in ids :: ids[o] in r && r[ids[o]] == Imported(src[o], ids[o], nodeIds))
  }

  /** Identities drawn from `lo` upwards are fresh for a collection below `lo`. */
  lemma FreshAbove<V>(m: map<Id, V>, back: map<Id, Id>, lo: Id, r: map<Id, V>)
    requires forall id | id in m :: id < lo
    requires forall n | n in back :: lo <= n
    requires r.Keys == m.Keys + back.Keys
    ensures m.Keys !! back.Keys
    ensures |r| == |m| + |back|
  {
    assert |r.Keys| == |m.Keys| + |back.Keys|;
  }

  /** Numbered nodes of `src` added to a valid `g` are imported as promised. */
  lemma ImportNodesImports(g: Graph, src: map<Id, Node>, ids: map<Id, Id>, back: map<Id, Id>, mid: Id)
    requires Valid(g) && ids.Keys == src.Keys && Numbering(ids, back, g.nextId, mid) && |back| == |src|
    ensures forall n | n in back :: back[n] in src
    ensures NodesImported(g, src, ids, ImportNodes(g.nodes, src, back))
  {
    NumberingInjective(ids, back, g.nextId, mid);
    FreshAbove(g.nodes, back, g.nextId, ImportNodes(g.nodes, src, back));
  }

  /** Numbered edges of `src` added to a valid `g` are imported as promised. */
  lemma ImportEdgesImports(g: Graph, src: map<Id, Edge>, nodeIds: map<Id, Id>, ids: map<Id, Id>, back: map<Id, Id>,
                           mid: Id, last: Id)
    requires Valid(g) && g.nextId <= mid
    requires ids.Keys == src.Keys && Numbering(ids, back, mid, last) && |back| == |src|
    ensures forall n | n in back :: back[n] in src
    ensures EdgesImported(g, src, nodeIds, ids, ImportEdges(g.edges, src, back, nodeIds))
  {
    NumberingInjective(ids, back, mid, last);
    FreshAbove(g.edges, back, mid, ImportEdges(g.edges, src, back, nodeIds));
  }

  /**
   * `g` with the numbered nodes and edges of `src` added, the identity
   * supply moved past them and the indices of `src` that `g` lacks copied.
   */
  function Merged(g: Graph, src: Graph, nodeIds: map<Id, Id>, nodeBack: map<Id, Id>, edgeBack: map<Id, Id>, last: Id)
    : Graph
    requires forall n | n in nodeBack :: nodeBack[n] in src.nodes
    requires forall n | n in edgeBack :: edgeBack[n] in src.edges
  {
    g.(nodes := ImportNodes(g.nodes, src.nodes, nodeBack),
       edges := ImportEdges(g.edges, src.edges, edgeBack, nodeIds),
       nextId := last,
       nodeIndices := CopyMissingIndices(g.nodeIndices, src.nodeIndices),
       edgeIndices := CopyMissingIndices(g.edgeIndices, src.edgeIndices))
  }

  /** Imported nodes sit in `[lo, hi)` under their own identity, above the stored ones. */
  lemma ImportNodesFiled(nodes: map<Id, Node>, src: map<Id, Node>, back: map<Id, Id>, lo: Id, hi: Id)
    requires lo <= hi
    requires forall id | id in nodes :: id < lo && nodes[id].id == id
    requires forall n | n in back :: back[n] in src && lo <= n < hi
    ensures forall id | id in ImportNodes(nodes, src, back) ::
      (id in nodes || lo <= id) && id < hi && ImportNodes(nodes, src, back)[id].id == id
  {
  }

  /** Imported edges sit in `[lo, hi)` under their own identity, above the stored ones. */
  lemma ImportEdgesFiled(edges: map<Id, Edge>, src: map<Id, Edge>, back: map<Id, Id>, nodeIds: map<Id, Id>,
                         lo: Id, hi: Id)
    requires lo <= hi
    requires forall id | id in edges :: id < lo && edges[id].id == id
    requires forall n | n in back :: back[n] in src && lo <= n < hi
    ensures forall id | id in ImportEdges(edges, src, back, nodeIds) ::
      (id in edges || lo <= id) && id < hi && ImportEdges(edges, src, back, nodeIds)[id].id == id
  {
  }

  /**
   * Nodes numbered from `g.nextId` up to `mid`, then edges from `mid` up to
   * `last`, merged into a valid store keep it valid.
   */
  lemma MergedKeepsValid(g: Graph, src: Graph, nodeIds: map<Id, Id>, nodeBack: map<Id, Id>, mid: Id,
                         edgeIds: map<Id, Id>, edgeBack: map<Id, Id>, last: Id)
    requires Valid(g) && g.nextId <= mid <= last
    requires nodeIds.Keys == src.nodes.Keys && Numbering(nodeIds, nodeBack, g.nextId, mid)
    requires edgeIds.Keys == src.edges.Keys && Numbering(edgeIds, edgeBack, mid, last)
    ensures forall n | n in nodeBack :: nodeBack[n] in src.nodes
    ensures forall n | n in edgeBack :: edgeBack[n] in src.edges
    ensures Valid(Merged(g, src, nodeIds, nodeBack, edgeBack, last))
  {
    ImportNodesFiled(g.nodes, src.nodes, nodeBack, g.nextId, mid);
    ImportEdgesFiled(g.edges, src.edges, edgeBack, nodeIds, mid, last);
    var r := Merged(g, src, nodeIds, nodeBack, edgeBack, last);
    forall id | id in r.nodes
      ensures id !in r.edges
    {
      if id !in g.nodes {
        assert id < mid;
      }
    }
  }

  /**
   * `mergeDatabase(path)`: open the graph stored at `path` (`disk`), whose
   * entities are read back with nothing marked changed, copy its missing
   * indices, insert each of its nodes under a fresh identity
   * while recording old→new identities, then insert each of its edges under
   * a fresh identity with both endpoints translated through that record.
   * The two identity maps are returned so that callers can relate the
   * imported entities to the originals.
   */
  method MergeDatabase(g: Graph, disk: Graph) returns (r: Graph, nodeIds: map<Id, Id>, edgeIds: map<Id, Id>)
    requires g.open && Valid(g)
    ensures Valid(r) && r.open
    ensures NodesImported(g, LoadNodes(disk.nodes), nodeIds, r.nodes)
    ensures EdgesImported(g, LoadEdges(disk.edges), nodeIds, edgeIds, r.edges)
    ensures r.nodeIndices == CopyMissingIndices(g.nodeIndices, Open(disk, true).nodeIndices)
    ensures r.edgeIndices == CopyMissingIndices(g.edgeIndices, Open(disk, true).edgeIndices)
    ensures r.userNodeIndexKeys == g.userNodeIndexKeys
  {
    var src := Open(disk, true);
    var nodeBack, edgeBack, mid, last;
    nodeIds, nodeBack, mid := AssignIds(src.nodes.Keys, g.nextId);
    edgeIds, edgeBack, last := AssignIds(src.edges.Keys, mid);
    MergedKeepsValid(g, src, nodeIds, nodeBack, mid, edgeIds, edgeBack, last);
    ImportNodesImports(g, src.nodes, nodeIds, nodeBack, mid);
    ImportEdgesImports(g, src.edges, nodeIds, edgeIds, edgeBack, mid, last);
    r := Merged(g, src, nodeIds, nodeBack, edgeBack, last);
  }
}

=== FILE: graph_model.dfy ===
/**
 * The state of the property-graph store (`Graph`), kept abstract: two
 * collections of entities keyed by identity, a supply of fresh identities,
 * the indices declared on each collection, and whether the store is open.
 */
module GraphModel {
  import opened Wrappers
  import opened Values
  import PB = PropertyBag

  /** A store-assigned identity. */
  type Id = nat

  /**
   * An identity as a caller passes it: any signed 64-bit value, which need
   * not name a stored entity and may be negative.
   */
  type RawId = int

  /** An edge endpoint: the identity the caller gave, or null. */
  type Ref = Option<RawId>

  /** `lbl` is the entity's label (`label` is a Dafny keyword). */
  datatype Node = Node(id: Id, lbl: string, bag: PB.Bag)

  /** A directed edge; several edges may share endpoints and label. */
  datatype Edge = Edge(id: Id, fromId: Ref, toId: Ref, lbl: string, bag: PB.Bag)

  /** The kinds of index the underlying collections support. */
  datatype IndexType = Unique | NonUnique | Fulltext

  /** A field an index can be declared on. */
  datatype Field = LabelField | FromIdField | ToIdField | PropertyField(key: Key)

  type Indices = map<Field, IndexType>

  datatype Graph = Graph(
    nodes: map<Id, Node>,
    edges: map<Id, Edge>,
    /** Every identity handed out so far is below this bound. */
    nextId: Id,
    nodeIndices: Indices,
    edgeIndices: Indices,
    /** Node property keys registered through `setNodeIndexPropertyKeys`. */
    userNodeIndexKeys: set<Key>,
    open: bool)

  /** The failures the façade raises before touching storage. */
  datatype GraphError =
    | MissingSourceNode
    | MissingTargetNode
    | InvalidLabel
    | NullEntity

  /**
   * The store invariant: identities are unique across both collections, each
   * entity carries the identity it is filed under, and none is at or above
   * the fresh-identity bound.
   */
  predicate Valid(g: Graph)
  {
    && (forall id | id in g.nodes :: id < g.nextId && g.nodes[id].id == id)
    && (forall id | id in g.edges :: id < g.nextId && g.edges[id].id == id)
    && g.nodes.Keys !! g.edges.Keys
  }

  /** The indices every open store carries. */
  predicate HasInternalIndices(g: Graph)
  {
    && LabelField in g.nodeIndices
    && FromIdField in g.edgeIndices
    && ToIdField in g.edgeIndices
    && LabelField in g.edgeIndices
  }

  /** Create a non-unique index on `f` unless one (of any kind) exists. */
  function AddIndexIfNotExists(ix: Indices, f: Field): (r: Indices)
    ensures f in r
    ensures f in ix ==> r == ix
    ensures f !in ix ==> r[f] == NonUnique && r - {f} == ix
  {
    if f in ix then ix else ix[f := NonUnique]
  }

  /** Drop the index on `f` if there is one. */
  function DropIndexIfExists(ix: Indices, f: Field): (r: Indices)
    ensures f !in r
    ensures r.Keys == ix.Keys - {f}
    ensures forall f' | f' in r :: r[f'] == ix[f']
  {
    ix - {f}
  }

  /**
   * Create a non-unique index on each field of `fs` that has none; indices
   * that exist keep their kind. This is `AddIndexIfNotExists` over `fs`.
   */
  function AddIndicesIfNotExist(ix: Indices, fs: set<Field>): (r: Indices)
    ensures r.Keys == ix.Keys + fs
    ensures forall f | f in ix :: r[f] == ix[f]
    ensures forall f | f in fs && f !in ix :: r[f] == NonUnique
  {
    (map f | f in fs :: NonUnique) + ix
  }

  /** The internal indices: node label, edge from/to identities and edge label. */
  function CreateInternalIndices(g: Graph): (r: Graph)
    ensures HasInternalIndices(r)
    ensures r.nodeIndices == AddIndicesIfNotExist(g.nodeIndices, {LabelField})
    ensures r.edgeIndices == AddIndicesIfNotExist(g.edgeIndices, {FromIdField, ToIdField, LabelField})
    ensures r == g.(nodeIndices := r.nodeIndices, edgeIndices := r.edgeIndices)
  {
    g.(nodeIndices := AddIndicesIfNotExist(g.nodeIndices, {LabelField}),
       edgeIndices := AddIndicesIfNotExist(g.edgeIndices, {FromIdField, ToIdField, LabelField}))
  }

  /**
   * The node collection as read back from storage: each bag is deserialised,
   * so its properties are those written and nothing is marked changed.
   */
  function LoadNodes(nodes: map<Id, Node>): (r: map<Id, Node>)
    ensures r.Keys == nodes.Keys
    ensures forall id | id in r ::
      && r[id].id == nodes[id].id && r[id].lbl == nodes[id].lbl
      && r[id].bag.properties == nodes[id].bag.properties && r[id].bag.changedKeys == {}
  {
    map id | id in nodes :: nodes[id].(bag := PB.ResetChangedKeys(nodes[id].bag))
  }

  /** The edge collection as read back from storage, likewise. */
  function LoadEdges(edges: map<Id, Edge>): (r: map<Id, Edge>)
    ensures r.Keys == edges.Keys
    ensures forall id | id in r ::
      && r[id].id == edges[id].id && r[id].lbl == edges[id].lbl
      && r[id].fromId == edges[id].fromId && r[id].toId == edges[id].toId
      && r[id].bag.properties == edges[id].bag.properties && r[id].bag.changedKeys == {}
  {
    map id | id in edges :: edges[id].(bag := PB.ResetChangedKeys(edges[id].bag))
  }

  /**
   * The constructor `Graph(path, reopen)`. `disk` is what the storage file at
   * `path` holds; without `reopen` the file is deleted first.
   */
  function Open(disk: Graph, reopen: bool): (g: Graph)
    ensures g.open && HasInternalIndices(g)
    ensures g.userNodeIndexKeys == {}
    ensures !reopen ==> g.nodes == map[] && g.edges == map[]
    ensures reopen ==> g.nodes == LoadNodes(disk.nodes) && g.edges == LoadEdges(disk.edges) && g.nextId == disk.nextId
    ensures reopen ==> forall f | f in disk.nodeIndices :: f in g.nodeIndices && g.nodeIndices[f] == disk.nodeIndices[f]
    ensures reopen ==> forall f | f in disk.edgeIndices :: f in g.edgeIndices && g.edgeIndices[f] == disk.edgeIndices[f]
    ensures reopen && Valid(disk) ==> Valid(g)
    ensures !reopen ==> Valid(g)
  {
    var stored :=
      if reopen then disk.(nodes := LoadNodes(disk.nodes), edges := LoadEdges(disk.edges),
                           userNodeIndexKeys := {}, open := true)
      else Graph(map[], map[], 0, map[], map[], {}, true);
    CreateInternalIndices(stored)
  }

  /**
   * `dispose()`: close the storage handle if it is still open and drop the
   * references. The second component tells whether a handle was closed by
   * this call. What was stored stays on disk.
   */
  function Dispose(g: Graph): (r: (Graph, bool))
    ensures !r.0.open
    ensures r.1 <==> g.open
    ensures r.0.nodes == g.nodes && r.0.edges == g.edges && r.0.nextId == g.nextId
    ensures r.0.nodeIndices == g.nodeIndices && r.0.edgeIndices == g.edgeIndices
  {
    (g.(open := false), g.open)
  }

  /** Disposing twice closes the handle at most once; the second call is a no-op. */
  lemma DisposeIdempotent(g: Graph)
    ensures Dispose(Dispose(g).0) == (Dispose(g).0, false)
  {
  }

  /**
   * Disposing and reopening the same file gives back every node and edge
   * with its identity, label, endpoints and properties; only the changed
   * marks are gone, so an entity with none comes back unchanged.
   */
  lemma ReopenRoundTrip(g: Graph)
    requires Valid(g)
    ensures var h := Open(Dispose(g).0, true);
      && h.nodes.Keys == g.nodes.Keys && h.edges.Keys == g.edges.Keys
      && |h.nodes| == |g.nodes| && |h.edges| == |g.edges|
      && (forall id | id in g.nodes ::
            h.nodes[id].lbl == g.nodes[id].lbl && h.nodes[id].bag.properties == g.nodes[id].bag.properties)
      && (forall id | id in g.edges ::
            && h.edges[id].lbl == g.edges[id].lbl
            && h.edges[id].fromId == g.edges[id].fromId && h.edges[id].toId == g.edges[id].toId
            && h.edges[id].bag.properties == g.edges[id].bag.properties)
      && (forall id | id in g.nodes && g.nodes[id].bag.changedKeys == {} :: h.nodes[id] == g.nodes[id])
      && (forall id | id in g.edges && g.edges[id].bag.changedKeys == {} :: h.edges[id] == g.edges[id])
      && (forall f | f in g.nodeIndices :: f in h.nodeIndices && h.nodeIndices[f] == g.nodeIndices[f])
      && (forall f | f in g.edgeIndices :: f in h.edgeIndices && h.edgeIndices[f] == g.edgeIndices[f])
      && Valid(h)
  {
  }
}

=== FILE: graph_query.dfy ===
/**
 * Retrieval on the graph store: identity lookups, label listings, the
 * equality-filtered `findNode*`/`findNodes*`/`findEdge*`/`findEdges*`
 * families, and adjacency by edge label.
 */
module GraphQuery {
  import opened Wrappers
  import opened Values
  import opened GraphModel
  import PB = PropertyBag

  /**
   * An AND-combined equality filter: an optional label, and key/value
   * equalities. The inline-pair overloads give the set of their pairs, the
   * map overloads the map's items.
   */
  datatype Query = Query(lbl: Option<string>, where: set<Entry>)

  /** The equality constraints given as inline pairs. */
  function Where(es: seq<Entry>): set<Entry>
  {
    set i | 0 <= i < |es| :: es[i]
  }

  /** An entity satisfies a query; an absent key compares equal to null. */
  predicate Satisfies(lbl: string, bag: PB.Bag, q: Query)
  {
    && (q.lbl.Some? ==> lbl == q.lbl.value)
    && forall e | e in q.where :: PB.Get(bag, e.0) == e.1
  }

  predicate NodeMatches(n: Node, q: Query)
  {
    Satisfies(n.lbl, n.bag, q)
  }

  predicate EdgeMatches(e: Edge, q: Query)
  {
    Satisfies(e.lbl, e.bag, q)
  }

  /** `getNode(id)`: the node filed under `id`, or null. */
  function GetNode(g: Graph, id: RawId): (r: Option<Node>)
    requires g.open
    ensures r.Some? <==> id in g.nodes
    ensures r.Some? ==> r.value == g.nodes[id]
  {
    if id in g.nodes then Some(g.nodes[id]) else None
  }

  /** `getEdge(id)`: the edge filed under `id`, or null. */
  function GetEdge(g: Graph, id: RawId): (r: Option<Edge>)
    requires g.open
    ensures r.Some? <==> id in g.edges
    ensures r.Some? ==> r.value == g.edges[id]
  {
    if id in g.edges then Some(g.edges[id]) else None
  }

  /** `findNodes(…)`: every stored node satisfying the query. */
  function FindNodes(g: Graph, q: Query): (r: set<Node>)
    requires g.open
    ensures forall n :: n in r <==> n in g.nodes.Values && NodeMatches(n, q)
  {
    set id | id in g.nodes && NodeMatches(g.nodes[id], q) :: g.nodes[id]
  }

  /** `findEdges(…)`: every stored edge satisfying the query. */
  function FindEdges(g: Graph, q: Query): (r: set<Edge>)
    requires g.open
    ensures forall e :: e in r <==> e in g.edges.Values && EdgeMatches(e, q)
  {
    set id | id in g.edges && EdgeMatches(g.edges[id], q) :: g.edges[id]
  }

  /**
   * The first key of `m`, in an unspecified iteration order, whose entry
   * satisfies `p`; none when no entry does.
   */
  method FindFirst<T>(m: map<Id, T>, p: T -> bool) returns (r: Option<Id>)
    ensures r.Some? ==> r.value in m && p(m[r.value])
    ensures r.None? ==> forall id | id in m :: !p(m[id])
  {
    var rest := m.Keys;
    while rest != {}
      invariant rest <= m.Keys
      invariant forall id | id in m && id !in rest :: !p(m[id])
      decreases rest
    {
      var id :| id in rest;
      if p(m[id]) {
        return Some(id);
      }
      rest := rest - {id};
    }
    return None;
  }

  /**
   * `findNode(…)` with a label and/or inline pairs: some node satisfying the
   * query, or null when none does. Which one is not specified.
   */
  method FindNode(g: Graph, q: Query) returns (r: Option<Node>)
    requires g.open
    ensures r.Some? ==> r.value in FindNodes(g, q)
    ensures r.None? <==> FindNodes(g, q) == {}
  {
    var id := FindFirst(g.nodes, n => NodeMatches(n, q));
    if id.Some? {
      r := Some(g.nodes[id.value]);
    } else {
      r := None;
    }
  }

  /** `findNode(properties)`: an empty map finds nothing at all. */
  method FindNodeByMap(g: Graph, m: map<Key, Value>) returns (r: Option<Node>)
    requires g.open
    ensures |m| == 0 ==> r.None?
    ensures |m| > 0 && r.Some? ==> r.value in g.nodes.Values && forall k | k in m :: PB.Get(r.value.bag, k) == m[k]
    ensures |m| > 0 && r.None? ==> forall n | n in g.nodes.Values :: exists k | k in m :: PB.Get(n.bag, k) != m[k]
  {
    if |m| == 0 {
      return None;
    }
    r := FindNode(g, Query(None, m.Items));
    if r.Some? {
      forall k | k in m
        ensures PB.Get(r.value.bag, k) == m[k]
      {
        assert (k, m[k]) in m.Items;
      }
    } else {
      forall n | n in g.nodes.Values
        ensures exists k | k in m :: PB.Get(n.bag, k) != m[k]
      {
        assert n !in FindNodes(g, Query(None, m.Items));
      }
    }
  }

  /** `findNodes(properties)`: an empty map lists every node. */
  function FindNodesByMap(g: Graph, m: map<Key, Value>): (r: set<Node>)
    requires g.open
    ensures |m| == 0 ==> r == g.nodes.Values
    ensures forall n :: n in r <==> n in g.nodes.Values && forall k | k in m :: PB.Get(n.bag, k) == m[k]
  {
    if |m| == 0 then g.nodes.Values
    else
      var r := FindNodes(g, Query(None, m.Items));
      assert forall n :: NodeMatches(n, Query(None, m.Items)) <==> forall k | k in m :: PB.Get(n.bag, k) == m[k] by {
        forall n
          ensures NodeMatches(n, Query(None, m.Items)) <==> forall k | k in m :: PB.Get(n.bag, k) == m[k]
        {
          if forall k | k in m :: PB.Get(n.bag, k) == m[k] {
            forall e | e in m.Items
              ensures PB.Get(n.bag, e.0) == e.1
            {
              assert e.0 in m && m[e.0] == e.1;
            }
          }
          if NodeMatches(n, Query(None, m.Items)) {
            forall k | k in m
              ensures PB.Get(n.bag, k) == m[k]
            {
              assert (k, m[k]) in m.Items;
            }
          }
        }
      }
      r
  }

  /** `findEdge(…)`: some edge satisfying the query, or null when none does. */
  method FindEdge(g: Graph, q: Query) returns (r: Option<Edge>)
    requires g.open
    ensures r.Some? ==> r.value in FindEdges(g, q)
    ensures r.None? <==> FindEdges(g, q) == {}
  {
    var id := FindFirst(g.edges, e => EdgeMatches(e, q));
    if id.Some? {
      r := Some(g.edges[id.value]);
    } else {
      r := None;
    }
  }

  /** A null or empty label means no label filter. */
  predicate NoLabel(lbl: Option<string>)
  {
    lbl.None? || |lbl.value| == 0
  }

  /** `getNodes(label)`: every node, or those carrying the label. */
  function GetNodes(g: Graph, lbl: Option<string>): (r: set<Node>)
    requires g.open
    ensures NoLabel(lbl) ==> r == g.nodes.Values
    ensures !NoLabel(lbl) ==> forall n :: n in r <==> n in g.nodes.Values && n.lbl == lbl.value
  {
    if NoLabel(lbl) then g.nodes.Values else FindNodes(g, Query(lbl, {}))
  }

  /** `getEdges(label)`: every edge, or those carrying the label. */
  function GetEdges(g: Graph, lbl: Option<string>): (r: set<Edge>)
    requires g.open
    ensures NoLabel(lbl) ==> r == g.edges.Values
    ensures !NoLabel(lbl) ==> forall e :: e in r <==> e in g.edges.Values && e.lbl == lbl.value
  {
    if NoLabel(lbl) then g.edges.Values else FindEdges(g, Query(lbl, {}))
  }

  /** An edge with label `lbl` that has `n` as one of its endpoints. */
  predicate Touches(e: Edge, n: RawId, lbl: string)
  {
    e.lbl == lbl && (e.fromId == Some(n) || e.toId == Some(n))
  }

  /** `r` is an endpoint of some edge with label `lbl` touching `n`, among the edges filed under `ids`. */
  ghost predicate EndpointAmong(g: Graph, ids: set<Id>, n: RawId, lbl: string, r: Ref)
  {
    exists id | id in ids && id in g.edges :: Touches(g.edges[id], n, lbl) && (g.edges[id].fromId == r || g.edges[id].toId == r)
  }

  /**
   * `getAdjacentNodeIdsForEdgeLabel(n, label)`: the distinct endpoints of
   * the edges with that label touching `n`, without `n` itself. A null
   * endpoint is reported as null.
   */
  method AdjacentNodeIds(g: Graph, n: RawId, lbl: string) returns (ids: set<Ref>)
    requires g.open
    ensures forall r :: r in ids <==> r != Some(n) && EndpointAmong(g, g.edges.Keys, n, lbl, r)
  {
    ids := {};
    var rest := g.edges.Keys;
    while rest != {}
      invariant rest <= g.edges.Keys
      invariant forall r :: r in ids <==> EndpointAmong(g, g.edges.Keys - rest, n, lbl, r)
      decreases rest
    {
      var id :| id in rest;
      var e := g.edges[id];
      var done := g.edges.Keys - rest;
      if Touches(e, n, lbl) {
        ids := ids + {e.fromId, e.toId};
      }
      rest := rest - {id};
      forall r
        ensures r in ids <==> EndpointAmong(g, g.edges.Keys - rest, n, lbl, r)
      {
        if EndpointAmong(g, g.edges.Keys - rest, n, lbl, r) {
          var w :| w in g.edges.Keys - rest && w in g.edges
            && Touches(g.edges[w], n, lbl) && (g.edges[w].fromId == r || g.edges[w].toId == r);
          if w != id {
            assert EndpointAmong(g, done, n, lbl, r);
          }
        }
      }
    }
    ids := ids - {Some(n)};
  }
}

=== FILE: graph_scenarios.dfy ===
/**
 * Properties that relate several store operations: what one operation
 * writes, another reads back.
 */
module GraphScenarios {
  import opened Wrappers
  import opened Values
  import opened GraphModel
  import PB = PropertyBag
  import opened GraphCrud
  import opened GraphQuery
  import opened GraphMerge

  /** With distinct keys every inline pair is the last one for its key. */
  lemma DistinctKeysAllLast(es: seq<Entry>, i: nat)
    requires DistinctKeys(es) && i < |es|
    ensures LastFor(es, i)
  {
  }

  /**
   * A node added with a label and distinct inline pairs is found by the
   * query on that label and those pairs, and listed under its label.
   */
  lemma AddNodeThenFind(g: Graph, lbl: string, es: seq<Entry>)
    requires g.open && Valid(g) && DistinctKeys(es)
    ensures var (h, n) := AddNode(g, lbl, Pairs(es));
      && n in FindNodes(h, Query(Some(lbl), Where(es)))
      && n in GetNodes(h, Some(lbl))
      && GetNode(h, n.id) == Some(n)
  {
    var (h, n) := AddNode(g, lbl, Pairs(es));
    forall e | e in Where(es)
      ensures PB.Get(n.bag, e.0) == e.1
    {
      var i :| 0 <= i < |es| && es[i] == e;
      DistinctKeysAllLast(es, i);
      BagOfLastValueWins(es, i);
    }
    assert n in h.nodes.Values by {
      assert h.nodes[n.id] == n;
    }
  }

  /**
   * The first-match lookup on the same query then succeeds too, with some
   * node satisfying it (not necessarily the new one).
   */
  method AddNodeThenFindFirst(g: Graph, lbl: string, es: seq<Entry>) returns (h: Graph, found: Option<Node>)
    requires g.open && Valid(g) && DistinctKeys(es)
    ensures found.Some? && found.value in h.nodes.Values && NodeMatches(found.value, Query(Some(lbl), Where(es)))
  {
    h := AddNode(g, lbl, Pairs(es)).0;
    AddNodeThenFind(g, lbl, es);
    found := FindNode(h, Query(Some(lbl), Where(es)));
  }

  /**
   * Merging `b` into `a` in a graph with the edges `a → c` and `b → c`
   * leaves the nodes `a` and `c` and two edges `a → c`.
   */
  lemma MergeNodesExample(g: Graph, a: Node, b: Node, c: Node, e1: Id, e2: Id)
    requires g.open
    requires a.id != b.id && b.id != c.id && a.id != c.id
    requires g.nodes.Keys == {a.id, b.id, c.id} && g.edges.Keys == {e1, e2}
    requires g.edges[e1].fromId == Some(a.id) && g.edges[e1].toId == Some(c.id)
    requires g.edges[e2].fromId == Some(b.id) && g.edges[e2].toId == Some(c.id)
    ensures var r := MergeNodes(g, a, b);
      && r.nodes.Keys == {a.id, c.id}
      && r.edges.Keys == {e1, e2}
      && r.edges[e1].fromId == Some(a.id) && r.edges[e1].toId == Some(c.id)
      && r.edges[e2].fromId == Some(a.id) && r.edges[e2].toId == Some(c.id)
  {
  }
}

=== FILE: property_bag.dfy ===
/**
 * The change-tracked property bag behind every stored entity (`MVStoreModel`):
 * a map from string keys to values, plus the set of keys written since the
 * bag was last loaded or reset. The changed set only steers partial
 * persistence; reads never consult it.
 */
module PropertyBag {
  import opened Wrappers
  import opened Values

  /** The reserved key under which an entity's identity is kept. */
  const IdField: Key := "__id"

  datatype Bag = Bag(properties: map<Key, Value>, changedKeys: set<Key>)

  /** The bag invariant: only keys that are present can be marked changed. */
  predicate Valid(b: Bag)
  {
    b.changedKeys <= b.properties.Keys
  }

  /** A freshly constructed bag: no properties and nothing changed. */
  function New(): (b: Bag)
    ensures Valid(b)
    ensures forall k :: !HasProperty(b, k) && k !in b.changedKeys
  {
    Bag(map[], {})
  }

  /** `keySet()`: the keys that currently have a value (possibly null). */
  function KeySet(b: Bag): (ks: set<Key>)
    ensures forall k :: k in ks <==> HasProperty(b, k)
  {
    b.properties.Keys
  }

  /** `hasProperty(key)`: true for a key that was written, even with null. */
  predicate HasProperty(b: Bag, k: Key): (r: bool)
    ensures !r ==> Get(b, k) == Null
  {
    k in b.properties
  }

  /**
   * `get(key)` and `getProperty(key)`: the stored value, or null when the key
   * is absent. A stored null and an absent key read the same.
   */
  function Get(b: Bag, k: Key): (v: Value)
    ensures k !in b.properties ==> v == Null
    ensures k in b.properties ==> v == b.properties[k]
  {
    if k in b.properties then b.properties[k] else Null
  }

  /**
   * How reading the identity fails: the stored value is of another kind and
   * the cast to an identity object throws, or there is no identity object
   * and `getIdValue()` dereferences null.
   */
  datatype IdError = NotAnIdentity | NullIdentity

  /**
   * `getId()`: the identity object stored under the reserved key, or null
   * when there is none. A value of any other kind stored there makes the
   * cast throw.
   */
  function GetId(b: Bag): (r: Result<Value, IdError>)
    ensures !HasProperty(b, IdField) ==> r == Success(Null)
    ensures r.Success? <==> Get(b, IdField).Null? || Get(b, IdField).Ident?
    ensures r.Success? ==> r.value == Get(b, IdField)
  {
    var v := Get(b, IdField);
    if v.Null? || v.Ident? then Success(v) else Failure(NotAnIdentity)
  }

  /**
   * `setProperty(key, value)`: overwrite the value and mark the key changed,
   * also when the new value equals the old one.
   */
  function SetProperty(b: Bag, k: Key, v: Value): (r: Bag)
    ensures Get(r, k) == v && HasProperty(r, k)
    ensures forall k' :: k' != k ==> Get(r, k') == Get(b, k')
    ensures KeySet(r) == KeySet(b) + {k}
    ensures k in r.changedKeys && r.changedKeys - {k} == b.changedKeys - {k}
    ensures Valid(b) ==> Valid(r)
  {
    Bag(b.properties[k := v], b.changedKeys + {k})
  }

  /**
   * `getIdValue()`: the value of the identity object that `getId()` returns.
   * A null identity is dereferenced and throws; a failed cast fails the same
   * way as in `getId()`.
   */
  function GetIdValue(b: Bag): (r: Result<int, IdError>)
    ensures r.Success? <==> Get(b, IdField).Ident?
    ensures r.Success? ==> Get(b, IdField) == Ident(r.value)
    ensures Get(b, IdField).Null? ==> r == Failure(NullIdentity)
    ensures GetId(b).Failure? ==> r == Failure(NotAnIdentity)
  {
    match GetId(b)
    case Failure(e) => Failure(e)
    case Success(v) => if v.Ident? then Success(v.idValue) else Failure(NullIdentity)
  }

  /** Storing an identity object under the reserved key makes `getIdValue()` return its value. */
  lemma GetIdValueAfterSetIdentity(b: Bag, n: int)
    ensures GetIdValue(SetProperty(b, IdField, Ident(n))) == Success(n)
    ensures GetIdValue(SetProperty(b, IdField, Null)) == Failure(NullIdentity)
  {
  }

  /**
   * Writing the reserved key decides what `getId()` then does: an identity
   * object or null reads back, any other value makes the cast fail. Writing
   * another key leaves `getId()` as it was.
   */
  lemma GetIdAfterSetProperty(b: Bag, k: Key, v: Value)
    ensures k == IdField ==> (GetId(SetProperty(b, k, v)).Success? <==> v.Null? || v.Ident?)
    ensures k == IdField && (v.Null? || v.Ident?) ==> GetId(SetProperty(b, k, v)) == Success(v)
    ensures k != IdField ==> GetId(SetProperty(b, k, v)) == GetId(b)
  {
  }

  /** `put(key, value)`: an alias of `setProperty`. */
  function Put(b: Bag, k: Key, v: Value): (r: Bag)
    ensures r == SetProperty(b, k, v)
  {
    SetProperty(b, k, v)
  }

  /** `resetChangedKeys()`: forget which keys were written; keep every value. */
  function ResetChangedKeys(b: Bag): (r: Bag)
    ensures r.changedKeys == {}
    ensures r.properties == b.properties
    ensures Valid(r)
  {
    Bag(b.properties, {})
  }

  lemma KeysOfCons(es: seq<Entry>)
    requires |es| > 0
    ensures KeysOf(es) == {es[0].0} + KeysOf(es[1..])
  {
  }

  lemma KeysOfSnoc(es: seq<Entry>, e: Entry)
    ensures KeysOf(es + [e]) == KeysOf(es) + {e.0}
  {
    var s := es + [e];
    assert s[|es|] == e;
    forall k | k in KeysOf(es)
      ensures k in KeysOf(s)
    {
      var i :| 0 <= i < |es| && es[i].0 == k;
      assert s[i] == es[i];
    }
  }

  /** Writing the entries of `es` one after another into the map `m`. */
  function Assign(m: map<Key, Value>, es: seq<Entry>): (r: map<Key, Value>)
    ensures r.Keys == m.Keys + KeysOf(es)
    ensures forall k :: k in m && k !in KeysOf(es) ==> r[k] == m[k]
    decreases |es|
  {
    if |es| == 0 then m
    else
      KeysOfCons(es);
      Assign(m[es[0].0 := es[0].1], es[1..])
  }

  /** A later entry for the same key overwrites an earlier one. */
  lemma {:induction false} AssignLastWins(m: map<Key, Value>, es: seq<Entry>, i: nat)
    requires i < |es| && LastFor(es, i)
    ensures es[i].0 in Assign(m, es) && Assign(m, es)[es[i].0] == es[i].1
    decreases |es|
  {
    var m' := m[es[0].0 := es[0].1];
    KeysOfCons(es);
    if i == 0 {
      forall j | 0 <= j < |es[1..]|
        ensures es[1..][j].0 != es[0].0
      {
        assert es[1..][j] == es[j + 1];
      }
      assert es[0].0 !in KeysOf(es[1..]);
    } else {
      forall j | i - 1 < j < |es[1..]|
        ensures es[1..][j].0 != es[1..][i - 1].0
      {
        assert es[1..][j] == es[j + 1];
      }
      AssignLastWins(m', es[1..], i - 1);
    }
  }

  /** `es` lists the entries of `m`, each key exactly once, in some order. */
  predicate Lists(es: seq<Entry>, m: map<Key, Value>)
  {
    && DistinctKeys(es)
    && KeysOf(es) == m.Keys
    && forall i :: 0 <= i < |es| ==> es[i].0 in m && m[es[i].0] == es[i].1
  }

  /** Writing every entry of `p`, in any order, amounts to a map union. */
  lemma AssignListing(m: map<Key, Value>, es: seq<Entry>, p: map<Key, Value>)
    requires Lists(es, p)
    ensures Assign(m, es) == m + p
  {
    var r := Assign(m, es);
    forall k | k in p
      ensures r[k] == p[k]
    {
      var i :| 0 <= i < |es| && es[i].0 == k;
      AssignLastWins(m, es, i);
    }
  }

  /**
   * Setting the entries `es` in order, as the overloads taking inline
   * key/value pairs do.
   */
  function SetAll(b: Bag, es: seq<Entry>): (r: Bag)
    ensures r.properties == Assign(b.properties, es)
    ensures r.changedKeys == b.changedKeys + KeysOf(es)
    ensures Valid(b) ==> Valid(r)
    decreases |es|
  {
    if |es| == 0 then b
    else
      KeysOfCons(es);
      SetAll(SetProperty(b, es[0].0, es[0].1), es[1..])
  }

  /**
   * Setting every entry of a map, as the overloads taking a property map do
   * by walking its entry set.
   */
  function SetAllFromMap(b: Bag, m: map<Key, Value>): (r: Bag)
    ensures forall k :: Get(r, k) == (if k in m then m[k] else Get(b, k))
    ensures KeySet(r) == KeySet(b) + m.Keys
    ensures r.changedKeys == b.changedKeys + m.Keys
    ensures Valid(b) ==> Valid(r)
  {
    Bag(b.properties + m, b.changedKeys + m.Keys)
  }

  /** Walking a map's entries in any order gives the same bag. */
  lemma SetAllFromMapAnyOrder(b: Bag, m: map<Key, Value>, es: seq<Entry>)
    requires Lists(es, m)
    ensures SetAll(b, es) == SetAllFromMap(b, m)
  {
    AssignListing(b.properties, es, m);
  }

  /**
   * `writeObject`: the serialised form is the property map's entries, each
   * once, in the map's own (unspecified) iteration order. The changed set is
   * not written.
   */
  method WriteObject(b: Bag) returns (s: seq<Entry>)
    ensures Lists(s, b.properties)
  {
    s := [];
    var rest := b.properties.Keys;
    while rest != {}
      invariant rest <= b.properties.Keys
      invariant KeysOf(s) == b.properties.Keys - rest
      invariant DistinctKeys(s)
      invariant forall i :: 0 <= i < |s| ==> s[i].0 in b.properties && b.properties[s[i].0] == s[i].1
      decreases rest
    {
      var k :| k in rest;
      assert forall i :: 0 <= i < |s| ==> s[i].0 != k by {
        forall i | 0 <= i < |s|
          ensures s[i].0 != k
        {
          assert s[i].0 in KeysOf(s);
        }
      }
      KeysOfSnoc(s, (k, b.properties[k]));
      s := s + [(k, b.properties[k])];
      rest := rest - {k};
    }
  }

  /**
   * `readObject`: rebuild the property map from the serialised entries and
   * start with an empty changed set.
   */
  function ReadObject(s: seq<Entry>): (b: Bag)
    ensures b.changedKeys == {}
    ensures Valid(b)
    ensures KeySet(b) == KeysOf(s)
  {
    Bag(Assign(map[], s), {})
  }

  /** Deserialising a serialised bag restores its properties, with nothing changed. */
  lemma SerialRoundTrip(b: Bag, s: seq<Entry>)
    requires Lists(s, b.properties)
    ensures ReadObject(s).properties == b.properties
    ensures ReadObject(s).changedKeys == {}
  {
    AssignListing(map[], s, b.properties);
  }

  /** A serialise-then-deserialise pass over a bag. */
  method RoundTrip(b: Bag) returns (r: Bag)
    ensures r.properties == b.properties
    ensures r.changedKeys == {}
  {
    var s := WriteObject(b);
    SerialRoundTrip(b, s);
    r := ReadObject(s);
  }

  /** The mutations a bag can undergo. */
  datatype BagOp =
    | SetOp(key: Key, value: Value)
    | PutOp(key: Key, value: Value)
    | ResetOp
    | ReadOp(stream: seq<Entry>)

  function Apply(b: Bag, op: BagOp): Bag
  {
    match op
    case SetOp(k, v) => SetProperty(b, k, v)
    case PutOp(k, v) => Put(b, k, v)
    case ResetOp => ResetChangedKeys(b)
    case ReadOp(s) => ReadObject(s)
  }

  function ApplyAll(b: Bag, ops: seq<BagOp>): Bag
    decreases |ops|
  {
    if |ops| == 0 then b else ApplyAll(Apply(b, ops[0]), ops[1..])
  }

  /** The changed keys stay a subset of the key set under any sequence of mutations. */
  lemma {:induction false} ChangedWithinKeys(b: Bag, ops: seq<BagOp>)
    requires Valid(b)
    ensures Valid(ApplyAll(b, ops))
    decreases |ops|
  {
    if |ops| > 0 {
      ChangedWithinKeys(Apply(b, ops[0]), ops[1..]);
    }
  }

  /** In particular from construction. */
  lemma ChangedWithinKeysFromNew(ops: seq<BagOp>)
    ensures Valid(ApplyAll(New(), ops))
  {
    ChangedWithinKeys(New(), ops);
  }
}

=== FILE: values.dfy ===
/** Property values and keys shared by every property bag in the store. */
module Values {

  /**
   * The closed set of kinds a property may hold. Java stores an arbitrary
   * `Object`; the store only ever writes nulls, booleans, integers,
   * floating-point numbers, strings, arrays of these, and the identity
   * objects (`MVStoreId`) it files under the reserved key.
   */
  datatype Value =
    | Null
    | Bool(b: bool)
    | Int(i: int)
      /** A floating-point value, kept opaque as its IEEE 754 bit pattern. */
    | Float(bits: bv64)
    | Str(s: string)
    | Array(elems: seq<Value>)
      /** An identity object, wrapping a signed 64-bit identity value. */
    | Ident(idValue: int)

  type Key = string

  /** One key/value pair, as written by `setProperty(key, value)`. */
  type Entry = (Key, Value)

  /** The keys mentioned by a sequence of entries. */
  function KeysOf(es: seq<Entry>): set<Key>
  {
    set i | 0 <= i < |es| :: es[i].0
  }

  /** No key occurs twice in `es`. */
  predicate DistinctKeys(es: seq<Entry>)
  {
    forall i, j :: 0 <= i < j < |es| ==> es[i].0 != es[j].0
  }

  /** Entry `i` is the last one in `es` that writes its key. */
  predicate LastFor(es: seq<Entry>, i: int)
    requires 0 <= i < |es|
  {
    forall j :: i < j < |es| ==> es[j].0 != es[i].0
  }
}

=== FILE: wrappers.dfy ===
/** `Option` and `Result`, used in place of Java's null references and exceptions. */
module Wrappers {

  /** A reference that may be null: `None` stands for Java's `null`. */
  datatype Option<+T> = None | Some(value: T)

  /** The outcome of an operation that either completes or throws. */
  datatype Result<+T, +E> = Success(value: T) | Failure(error: E)
}
